=== FILE: README.md ===
# Practicum schedule viewer — table logic in Dafny

The schedule page (`jadwal-praktikum/js/script.js`) loads a sheet of a practicum
schedule as a two-dimensional array of cells, row 0 being the header row, and
shows it as a table. Clicking a header sorts the data rows on that column, a
second click on the same header reverses the direction, and a search box filters
the data rows by a case-insensitive substring. This project models that table
logic as pure functions over immutable sequences and proves what it promises.

Modules, one per part of the script:

- `JsValues` (`values.dfy`): the cell values a sheet delivers (`Undefined`, `Null`,
  `Bool`, integer `Num`, `Str`), the conversions `Number`/`isNaN`, `String`,
  truthiness, `trim` and `includes`, and the `Runtime` record. The record holds
  the engine services the page calls but whose semantics are not modelled:
  `Number` on a string, `Date.parse`, `formatDate` (`toLocaleDateString('id-ID')`),
  `localeCompare` and `toLowerCase`. They are left uninterpreted, and every
  property is proved for all of them, under the assumptions a lemma's `requires`
  names (a total-preorder `localeCompare` for text-column order, fixed parse
  results in the worked examples; see "Left out").
- `Html` (`html.dfy`): the five chained `replace` calls that end `formatCell`.
- `CellFormat` (`format.dfy`): `formatCell`, with its branches tried in order.
- `Sorting` (`sorting.dfy`): the `currentSort` state and its toggle, the header
  indicator, the comparator and the sorted view. `Array.prototype.sort` is a
  stable insertion sort.
- `Search` (`search.dfy`): `handleSearch`'s query normalisation and row filter.
- `Render` (`render.dfy`): `renderTable`, as a structured screen (the empty
  state, or header cells plus body rows of formatted text) rather than a markup
  string. The same screen type also holds the error panel that `showError`
  draws; `Fetch.Load` is what produces it.
- `Fetch` (`fetch.dfy`): what `fetchData` does with a decoded response. That is
  the normalisation of each row's first cell, and the choice between the error
  display and the table.
- `Viewer` (`viewer.dfy`): the global `originalData`/`currentSort` pair and the
  three events: a response arriving, a header click and a search.

Behaviours of the script a reader might not expect, which the model keeps:

- A new load does not reset the sort state or the search box. The header
  indicators after a load still show the previous sort.
- A search always starts from the loaded rows. It drops any sort order, yet the
  header keeps showing the active sort's indicator (`Viewer.SearchDropsSortOrder`).
  A sort in turn ignores the query.
- A ragged row renders with fewer cells. There is no dash for a missing cell. A
  dash appears only for a `null` or `undefined` value.
- Ingest writes `row[0]` even into an empty row. That row then holds one
  `undefined` cell, which renders as a dash and matches the search "undef"
  (`Fetch.EmptyRowBecomesUndefined`).
- A number value, as opposed to a numeric string, never takes the verbatim
  "week number" branch of `formatCell`, because a number has no `length`. Ingest
  turns only cell 0 into a string, so only that column gets the verbatim branch
  when its cells are JSON numbers.
- Header labels and `showError` messages are inserted without escaping
  (`Render.HeaderLabelsNotEscaped`, `Fetch.Load`). The model keeps this behaviour.

## Model

| member | source | states |
|---|---|---|
| `Sorting.Toggle` | jadwal-praktikum/js/script.js:114-122 | after a click on column i, i is the active column; it flips direction if it was already active, else it starts ascending |
| `Sorting.ToggleTwice` | jadwal-praktikum/js/script.js:114-122 | two clicks on one column always leave opposite directions; on the active column they restore the state; on a new column they end descending |
| `Sorting.IconFor` | jadwal-praktikum/js/script.js:152-159 | neutral glyph exactly for a non-active column; up exactly for the active ascending column; down exactly for the active descending column |
| `Sorting.IconsAfterToggle` | jadwal-praktikum/js/script.js:152-159 | after a click on column i every other column shows neutral; i shows up exactly when it did not show up before |
| `Sorting.IconMarkupDistinct` | jadwal-praktikum/js/script.js:152-159 | the three indicator glyphs are pairwise different, so the direction shown on screen identifies the sort state of the column |
| `Sorting.Compare` | jadwal-praktikum/js/script.js:129-137 | when both key cells convert to numbers, the comparator is at most zero exactly when the first key may precede the second in the requested direction, and zero exactly when the keys are equal |
| `Sorting.CompareSymmetry` | jadwal-praktikum/js/script.js:129-145 | descending compares as ascending with the rows swapped; numeric keys compare antisymmetrically; otherwise ascending is the locale order of the cells' string forms, a cell past the row's end being `undefined` |
| `Sorting.MixedColumnCycle` | jadwal-praktikum/js/script.js:133-144 | in a column mixing numbers and text the comparator can cycle ("2" < "10" < "1a" < "2"), so it is no total order |
| `Sorting.InsertRow` | jadwal-praktikum/js/script.js:129 | inserting a row yields the old rows plus that row, as a multiset |
| `Sorting.SortRows` | jadwal-praktikum/js/script.js:129-145 | the sorted rows are a permutation of the input rows |
| `Sorting.SortRowsNumericOrder` | jadwal-praktikum/js/script.js:133-139 | when every key cell is numeric, the sorted rows are nondecreasing in the key when ascending and nonincreasing when descending |
| `Sorting.SortRowsTextOrder` | jadwal-praktikum/js/script.js:141-144 | when no key cell of the column is numeric and `localeCompare` is a total preorder, the sorted rows follow `localeCompare` of `String(cell)`: ascending when ascending, reversed arguments when descending |
| `Sorting.AscendingUnique` | jadwal-praktikum/js/script.js:129-145 | two ascending arrangements of the same rows are equal when the key determines the row |
| `Sorting.DescendingReversesAscending` | jadwal-praktikum/js/script.js:137-138 | on a numeric column without ties the descending order is the ascending order reversed |
| `Sorting.SortView` | jadwal-praktikum/js/script.js:124-148 | for a non-empty dataset: same length, the header row first and unchanged, the data rows permuted; ordered by the numeric key in the requested direction when every key cell is numeric, and by the `localeCompare` order of the key text when none is and `localeCompare` is a total preorder; for an empty dataset no view (the renderer fails on the missing header) |
| `Viewer.OnSort` | jadwal-praktikum/js/script.js:114-150 | a click toggles the sort state and leaves the stored dataset unchanged; it draws a table exactly when the dataset is non-empty, of the header and a permutation of the data rows ordered by the clicked column in the new direction: numerically when that column is all numeric, by `localeCompare` of the cell text when none of it is numeric and `localeCompare` is a total preorder |
| `Viewer.WeekColumnFirstClick` | jadwal-praktikum/js/script.js:114-148 | week cells 3, 1, 2: the first click on column 0 makes it ascending and orders them 1, 2, 3 |
| `Viewer.WeekColumnSecondClick` | jadwal-praktikum/js/script.js:114-148 | a second click makes column 0 descending and orders them 3, 2, 1 |
| `Viewer.WeekNumbersAreKeys` | jadwal-praktikum/js/script.js:134-137 | cells "1", "2", "3" that `Number` reads as 1, 2, 3 are numeric keys 1, 2, 3 |
| `JsValues.Trim` | jadwal-praktikum/js/script.js:165 | the result is the slice left after removing the leading and trailing ECMAScript white space, and it neither starts nor ends with white space |
| `JsValues.TrimIdempotent` | jadwal-praktikum/js/script.js:165 | trimming a trimmed query changes nothing |
| `JsValues.NatToDecimal` | jadwal-praktikum/js/script.js:55 | `String` of a number is a non-empty digit string without a leading zero |
| `JsValues.DecimalRoundTrip` | jadwal-praktikum/js/script.js:55 | the decimal string of a number reads back as that number |
| `Search.FilterRows` | jadwal-praktikum/js/script.js:179-183 | the kept rows are an order-preserving subsequence of the rows; every kept row matches; each row is kept exactly as often as it occurs if it matches, and never if it does not |
| `Search.FilterRowsIdempotent` | jadwal-praktikum/js/script.js:179-183 | filtering the kept rows again with the same query keeps all of them |
| `Search.SearchView` | jadwal-praktikum/js/script.js:164-185 | empty dataset: no redraw; empty normalised query: the loaded dataset unchanged; otherwise the header, then a subsequence of the data rows holding a row iff some cell's lower-cased text contains the query, each matching row as often as it occurs in the data |
| `Search.SearchViewStable` | jadwal-praktikum/js/script.js:164-185 | searching the result again with the same input gives the same view |
| `Viewer.OnSearch` | jadwal-praktikum/js/script.js:164-185 | a search changes neither the dataset nor the sort state; it draws the filtered loaded rows with the current indicators exactly when the dataset is non-empty |
| `Viewer.SearchDropsSortOrder` | jadwal-praktikum/js/script.js:164-177 | an empty query after a sort draws the rows in loaded order under the new sort indicators |
| `Viewer.ClickBeforeLoad` | jadwal-praktikum/js/script.js:12-16 | from the initial state (no data, no active column, ascending) a click on column i makes i the active ascending column and draws nothing; a search draws nothing and changes nothing |
| `Html.EscapeHtmlIsEscapeEach` | jadwal-praktikum/js/script.js:241-246 | the five chained replacements, `&` first, equal escaping each character on its own |
| `Html.EscapeHtmlSafe` | jadwal-praktikum/js/script.js:241-246 | escaped text contains no raw `<`, `>`, `"` or `'`, and decoding the five entities gives back the original string exactly |
| `Html.EscapeHtmlChar` | jadwal-praktikum/js/script.js:242-246 | each special character becomes its entity under the chain; every other character is kept |
| `Html.UnescapeEntity` | jadwal-praktikum/js/script.js:242-246 | decoding an entity followed by any text gives back its character followed by the decoded text |
| `CellFormat.FormatCell` | jadwal-praktikum/js/script.js:225-247 | null/undefined give a dash; a short numeric string comes back verbatim; a date goes to the date formatter; free text comes out markup-free and decodes back to the value's string form |
| `CellFormat.WeekNumberBeforeDate` | jadwal-praktikum/js/script.js:230-238 | a numeric string of length at most 2 is shown verbatim, whatever the date parser says about it |
| `CellFormat.NumberValueNotVerbatim` | jadwal-praktikum/js/script.js:231 | a number value never takes the verbatim branch; it is shown as a date or as its escaped decimal form |
| `CellFormat.FreeTextIsEscaped` | jadwal-praktikum/js/script.js:240-246 | a string that is neither numeric nor a date is escaped, markup-free, and decodes back to itself |
| `Render.RenderTable` | jadwal-praktikum/js/script.js:71-109 | empty state exactly for no rows; otherwise one header cell per header entry (raw text, column index, indicator) and one body row per data row, one formatted cell per cell |
| `Render.RenderedFreeTextSafe` | jadwal-praktikum/js/script.js:99-105 | every free-text body cell on screen is markup-free and decodes back to the cell's string form |
| `Render.SortStateOnlyMovesIcons` | jadwal-praktikum/js/script.js:84-105 | two sort states give the same body and the same header texts and columns; only indicators differ |
| `Render.HeaderLabelsNotEscaped` | jadwal-praktikum/js/script.js:84-94 | a header cell holding `<b>Minggu</b>` reaches the screen with its markup intact |
| `Fetch.IngestRow` | jadwal-praktikum/js/script.js:54-57 | only cell 0 changes: it keeps its string form and is a string or NaN-valued afterwards; an empty row gains one cell; the other cells stay as they were |
| `Fetch.Ingest` | jadwal-praktikum/js/script.js:54-57 | the row count is kept and each row is normalised on its own |
| `Fetch.IngestIdempotent` | jadwal-praktikum/js/script.js:54-57 | normalising already ingested rows changes nothing |
| `Fetch.EmptyRowBecomesUndefined` | jadwal-praktikum/js/script.js:55 | an empty row becomes one `undefined` cell, renders as a dash, and matches the query "undef" |
| `Fetch.Load` | jadwal-praktikum/js/script.js:41-66 | a truthy `error` clears the data and shows the message as is; a missing `values` or a failed request clears the data and shows the generic message; otherwise the data is the ingested `values`, one row per row, and is rendered with the current sort state |
| `Viewer.OnLoad` | jadwal-praktikum/js/script.js:41-66 | a response keeps the sort state and always redraws; a usable response stores and draws the ingested `values`; an error response stores no rows and shows its `error` as is; a failed request or missing `values` stores no rows and shows the generic message |
| `Viewer.LoadAfterError` | jadwal-praktikum/js/script.js:49-60 | after an error response the data is empty and the message is on screen; a later successful response replaces both |

## Left out

- `fetch`, `response.json()`, the Apps Script URL and the sheet-name query string
  are network I/O. The model starts from the decoded response (`Fetch.Response`).
  A JSON `values` that is not an array of arrays counts as absent. Two overlapping
  loads can race, and the later-resolving one wins; that race is not modelled.
- DOM writes (`innerHTML`), event listeners, `showLoadingState`, the exact markup
  of `createEmptyState`/`showError`, and `console.error` are UI plumbing. Only the
  screen they produce (`Render.Screen`) is modelled.
- `toggleTheme` and `loadTheme` are left out. They are DOM class changes plus
  `localStorage`, with no bearing on the table.
- `debounce` is left out. It only delays `handleSearch` by 300 ms, which is
  timing rather than logic.
- `formatDate`, `Date.parse`, `Number` on strings, `localeCompare` and
  `toLowerCase` are engine and locale semantics. They are uninterpreted fields of
  `JsValues.Runtime`.
- Numbers are integers. Floating point, `NaN` and `Infinity` as values, and the
  exponent form that `String` uses from 10^21 upwards are not modelled.
- Strings are sequences of Unicode scalar values. JavaScript counts UTF-16 code
  units, so `length` differs for characters outside the Basic Multilingual Plane.
  Numeric strings are never affected.
- Sorting.SortRows: for a comparator that is not consistent (a column mixing
  numbers and text), ECMAScript leaves the resulting order to the
  implementation. The model fixes one stable insertion order, and only the
  permutation property is claimed there.
- Sorting.SortRowsTextOrder: text columns are claimed to be ordered only when
  `localeCompare` is a total preorder (`Sorting.LocaleTotalOrder`). The collation
  rules of the `id-ID` locale are not modelled, so nothing is said about which
  text comes first.
- The worked examples (`Viewer.WeekNumbersAreKeys`, `Viewer.WeekColumnFirstClick`,
  `Sorting.MixedColumnCycle`, `Fetch.EmptyRowBecomesUndefined`) fix the results
  of `Number`, `localeCompare` or `toLowerCase` on their particular inputs in
  their `requires`; they hold for every runtime that agrees on those inputs.
- Cells that are JSON objects or arrays, and rows that are not arrays, are not
  part of the value model.

=== FILE: fetch.dfy ===
/**
 * What `fetchData` does with the decoded response: the ingest normalisation of
 * each row's first cell, and the choice between error display and table.
 */
module Fetch {
  import opened Wrappers
  import opened JsValues
  import opened Sorting
  import opened CellFormat
  import opened Search
  import opened Render

  /** `isNaN(v) ? v : String(v)`: a value that converts to a number is replaced
      by its string form, anything else is kept. */
  function NormalizeFirstCell(v: Value, rt: Runtime): Value
  {
    if IsNaN(v, rt) then v else Str(ToStr(v))
  }

  /** `row[0] = ...; return row`. The assignment writes index 0 even when the
      row is empty, so an empty row comes out holding one `undefined` cell. */
  function IngestRow(row: Row, rt: Runtime): (r: Row)
    ensures |r| == if |row| == 0 then 1 else |row|
    ensures forall k | 1 <= k < |row| :: r[k] == row[k]
    ensures ToStr(r[0]) == ToStr(Lookup(row, 0))
    ensures r[0].Str? || IsNaN(r[0], rt)
    ensures IsNaN(Lookup(row, 0), rt) ==> r[0] == Lookup(row, 0)
  {
    [NormalizeFirstCell(Lookup(row, 0), rt)] + (if |row| == 0 then [] else row[1..])
  }

  /** `json.values.map(...)`: row count kept, each row normalised. */
  function Ingest(values: Table, rt: Runtime): (r: Table)
    ensures |r| == |values|
    ensures forall i | 0 <= i < |values| :: r[i] == IngestRow(values[i], rt)
  {
    seq(|values|, i requires 0 <= i < |values| => IngestRow(values[i], rt))
  }

  /** Ingesting an ingested dataset changes nothing. */
  lemma IngestIdempotent(values: Table, rt: Runtime)
    ensures Ingest(Ingest(values, rt), rt) == Ingest(values, rt)
  {
    var once := Ingest(values, rt);
    forall i | 0 <= i < |values|
      ensures IngestRow(once[i], rt) == once[i]
    {
      var r := once[i];
      assert r == [r[0]] + r[1..];
    }
  }

  /** An empty JSON row becomes a row of one `undefined` cell: it renders as a
      dash and, as the text "undefined", can match a search. */
  lemma EmptyRowBecomesUndefined(rt: Runtime)
    ensures IngestRow([], rt) == [Undefined]
    ensures FormatCell(IngestRow([], rt)[0], rt) == Dash
    ensures rt.toLower("undefined") == "undefined" ==> RowMatches(IngestRow([], rt), "undef", rt)
  {
    var r := IngestRow([], rt);
    if rt.toLower("undefined") == "undefined" {
      assert OccursAt(rt.toLower(ToStr(r[0])), "undef", 0);
    }
  }

  /** The decoded response: a transport or parse failure, or a JSON object with
      its `error` field (`undefined` when absent) and its `values` field
      (None when absent or not an array of rows). */
  datatype Response = TransportFailure | Json(error: Value, values: Option<Table>)

  const LoadFailureMessage := "Gagal mengambil data. Silakan coba lagi."

  /** The dataset the page keeps and the screen it shows after a response. */
  datatype Loaded = Loaded(data: Table, screen: Screen)

  /** A truthy `error` is shown as is and clears the data; a missing `values`
      fails inside the `try` and shows the generic message; otherwise the
      ingested rows become the data and are rendered with the current sort state. */
  function Load(resp: Response, st: SortState, rt: Runtime): (r: Loaded)
    ensures resp.TransportFailure? ==> r == Loaded([], ErrorState(LoadFailureMessage))
    ensures resp.Json? && Truthy(resp.error) ==> r == Loaded([], ErrorState(ToStr(resp.error)))
    ensures resp.Json? && !Truthy(resp.error) && resp.values.None? ==> r == Loaded([], ErrorState(LoadFailureMessage))
    ensures resp.Json? && !Truthy(resp.error) && resp.values.Some? ==>
      && r.data == Ingest(resp.values.value, rt)
      && r.screen == RenderTable(r.data, st, rt)
    ensures r.screen.ErrorState? ==> r.data == []
  {
    match resp
    case TransportFailure => Loaded([], ErrorState(LoadFailureMessage))
    case Json(error, values) =>
      if Truthy(error) then Loaded([], ErrorState(ToStr(error)))
      else if values.None? then Loaded([], ErrorState(LoadFailureMessage))
      else
        var data := Ingest(values.value, rt);
        Loaded(data, RenderTable(data, st, rt))
  }
}

=== FILE: format.dfy ===
/**
 * `formatCell`: how one body cell becomes display text. The branches are tried
 * in the page's order: absent value, short number, date, free text.
 */
module CellFormat {
  import opened JsValues
  import opened Html

  /** The branch of the formatter a value takes. */
  datatype CellKind = Placeholder | WeekNumber | DateText | FreeText

  /** `null`/`undefined` first; then a numeric string of length at most two
      (a number value has no `length`, so it never qualifies); then anything
      `Date.parse` accepts; the rest is free text. */
  function Classify(v: Value, rt: Runtime): CellKind
  {
    if v.Undefined? || v.Null? then Placeholder
    else if !IsNaN(v, rt) && v.Str? && |v.s| <= 2 then WeekNumber
    else if rt.parsesAsDate(ToStr(v)) then DateText
    else FreeText
  }

  const Dash := "-"

  /** The display text of a cell. Free text comes out with no raw markup
      character and decodes back to the value's string form. */
  function FormatCell(v: Value, rt: Runtime): (r: string)
    ensures Classify(v, rt) == Placeholder ==> r == Dash
    ensures Classify(v, rt) == WeekNumber ==> r == v.s
    ensures Classify(v, rt) == DateText ==> r == rt.formatDate(v)
    ensures Classify(v, rt) == FreeText ==> MarkupFree(r) && Unescape(r) == ToStr(v)
  {
    match Classify(v, rt)
    case Placeholder => Dash
    case WeekNumber => v.s
    case DateText => rt.formatDate(v)
    case FreeText =>
      EscapeHtmlSafe(ToStr(v));
      EscapeHtml(ToStr(v))
  }

  /** The short-number test runs before the date test: a week number such as
      "12" is shown as written even when the engine would read it as a date. */
  lemma WeekNumberBeforeDate(s: string, rt: Runtime)
    requires rt.parseNumber(s).Some? && |s| <= 2
    ensures FormatCell(Str(s), rt) == s
  {
  }

  /** A number value never takes the verbatim branch: it is shown as a date
      when its decimal form parses as one, and escaped otherwise. */
  lemma NumberValueNotVerbatim(n: int, rt: Runtime)
    ensures Classify(Num(n), rt) != WeekNumber
    ensures rt.parsesAsDate(IntToDecimal(n)) ==> FormatCell(Num(n), rt) == rt.formatDate(Num(n))
    ensures !rt.parsesAsDate(IntToDecimal(n)) ==> Unescape(FormatCell(Num(n), rt)) == IntToDecimal(n)
  {
  }

  /** A string that is neither numeric nor a date is escaped; nothing else can
      bypass the escaping, so markup in such a cell never reaches the page. */
  lemma FreeTextIsEscaped(s: string, rt: Runtime)
    requires rt.parseNumber(s).None? && !rt.parsesAsDate(s)
    ensures FormatCell(Str(s), rt) == EscapeHtml(s)
    ensures MarkupFree(FormatCell(Str(s), rt))
    ensures Unescape(FormatCell(Str(s), rt)) == s
  {
  }
}

=== FILE: html.dfy ===
/**
 * The HTML escaping at the end of `formatCell`: five global single-character
 * replacements applied one after the other, `&` first.
 */
module Html {

  /** `s.replace(/c/g, rep)`: every occurrence of `c` replaced by `rep`. */
  function ReplaceChar(s: string, c: char, rep: string): string
  {
    if |s| == 0 then "" else (if s[0] == c then rep else [s[0]]) + ReplaceChar(s[1..], c, rep)
  }

  /** The escaping chain exactly as the page performs it. */
  function EscapeHtml(s: string): string
  {
    var amp := ReplaceChar(s, '&', "&amp;");
    var lt := ReplaceChar(amp, '<', "&lt;");
    var gt := ReplaceChar(lt, '>', "&gt;");
    var quot := ReplaceChar(gt, '"', "&quot;");
    ReplaceChar(quot, '\'', "&#039;")
  }

  /** What one character becomes in escaped text. */
  function Entity(c: char): string
  {
    match c
    case '&' => "&amp;"
    case '<' => "&lt;"
    case '>' => "&gt;"
    case '"' => "&quot;"
    case '\'' => "&#039;"
    case _ => [c]
  }

  /** Reference definition: escape each character on its own. */
  function EscapeEach(s: string): string
  {
    if |s| == 0 then "" else Entity(s[0]) + EscapeEach(s[1..])
  }

  /** The characters that would open markup or leave an attribute value. */
  predicate IsMarkupChar(c: char)
  {
    c == '<' || c == '>' || c == '"' || c == '\''
  }

  predicate MarkupFree(s: string)
  {
    forall i | 0 <= i < |s| :: !IsMarkupChar(s[i])
  }

  predicate StartsWith(s: string, prefix: string)
  {
    |prefix| <= |s| && s[..|prefix|] == prefix
  }

  /** Decoding of the five entities the escaping produces; any other text is kept. */
  function Unescape(s: string): string
  {
    if |s| == 0 then ""
    else if s[0] != '&' then [s[0]] + Unescape(s[1..])
    else if StartsWith(s, "&amp;") then "&" + Unescape(s[5..])
    else if StartsWith(s, "&lt;") then "<" + Unescape(s[4..])
    else if StartsWith(s, "&gt;") then ">" + Unescape(s[4..])
    else if StartsWith(s, "&quot;") then "\"" + Unescape(s[6..])
    else if StartsWith(s, "&#039;") then "'" + Unescape(s[6..])
    else [s[0]] + Unescape(s[1..])
  }

  lemma {:induction false} ReplaceCharAppend(a: string, b: string, c: char, rep: string)
    ensures ReplaceChar(a + b, c, rep) == ReplaceChar(a, c, rep) + ReplaceChar(b, c, rep)
    decreases |a|
  {
    if |a| > 0 {
      assert (a + b)[1..] == a[1..] + b;
      ReplaceCharAppend(a[1..], b, c, rep);
    } else {
      assert a + b == b;
    }
  }

  lemma {:induction false} ReplaceCharAbsent(s: string, c: char, rep: string)
    requires c !in s
    ensures ReplaceChar(s, c, rep) == s
    decreases |s|
  {
    if |s| > 0 {
      assert s == [s[0]] + s[1..];
      ReplaceCharAbsent(s[1..], c, rep);
    }
  }

  lemma ReplaceCharOne(x: char, c: char, rep: string)
    ensures ReplaceChar([x], c, rep) == if x == c then rep else [x]
  {
    assert [x][1..] == "";
  }

  /** The passes after `&` leave an entity that holds none of their characters alone. */
  lemma LaterPassesKeep(e: string)
    requires '<' !in e && '>' !in e && '"' !in e && '\'' !in e
    ensures ReplaceChar(ReplaceChar(ReplaceChar(ReplaceChar(e, '<', "&lt;"), '>', "&gt;"), '"', "&quot;"), '\'', "&#039;") == e
  {
    ReplaceCharAbsent(e, '<', "&lt;");
    ReplaceCharAbsent(e, '>', "&gt;");
    ReplaceCharAbsent(e, '"', "&quot;");
    ReplaceCharAbsent(e, '\'', "&#039;");
  }

  lemma EscapeHtmlAmp(x: char)
    requires x == '&'
    ensures EscapeHtml([x]) == Entity(x)
  {
    var e := ReplaceChar([x], '&', "&amp;");
    ReplaceCharOne(x, '&', "&amp;");
    LaterPassesKeep(e);
  }

  lemma LastPassesKeep(e: string)
    requires '>' !in e && '"' !in e && '\'' !in e
    ensures ReplaceChar(ReplaceChar(ReplaceChar(e, '>', "&gt;"), '"', "&quot;"), '\'', "&#039;") == e
  {
    ReplaceCharAbsent(e, '>', "&gt;");
    ReplaceCharAbsent(e, '"', "&quot;");
    ReplaceCharAbsent(e, '\'', "&#039;");
  }

  lemma FinalPassesKeep(e: string)
    requires '"' !in e && '\'' !in e
    ensures ReplaceChar(ReplaceChar(e, '"', "&quot;"), '\'', "&#039;") == e
  {
    ReplaceCharAbsent(e, '"', "&quot;");
    ReplaceCharAbsent(e, '\'', "&#039;");
  }

  lemma EscapeHtmlLt(x: char)
    requires x == '<'
    ensures EscapeHtml([x]) == Entity(x)
  {
    ReplaceCharOne(x, '&', "&amp;");
    var e := ReplaceChar([x], '<', "&lt;");
    ReplaceCharOne(x, '<', "&lt;");
    LastPassesKeep(e);
  }

  lemma EscapeHtmlGt(x: char)
    requires x == '>'
    ensures EscapeHtml([x]) == Entity(x)
  {
    ReplaceCharOne(x, '&', "&amp;");
    ReplaceCharOne(x, '<', "&lt;");
    var e := ReplaceChar([x], '>', "&gt;");
    ReplaceCharOne(x, '>', "&gt;");
    FinalPassesKeep(e);
  }

  lemma EscapeHtmlQuot(x: char)
    requires x == '"'
    ensures EscapeHtml([x]) == Entity(x)
  {
    ReplaceCharOne(x, '&', "&amp;");
    ReplaceCharOne(x, '<', "&lt;");
    ReplaceCharOne(x, '>', "&gt;");
    var e := ReplaceChar([x], '"', "&quot;");
    ReplaceCharOne(x, '"', "&quot;");
    ReplaceCharAbsent(e, '\'', "&#039;");
  }

  lemma EscapeHtmlApos(x: char)
    requires x == '\''
    ensures EscapeHtml([x]) == Entity(x)
  {
    ReplaceCharOne(x, '&', "&amp;");
    ReplaceCharOne(x, '<', "&lt;");
    ReplaceCharOne(x, '>', "&gt;");
    ReplaceCharOne(x, '"', "&quot;");
    ReplaceCharOne(x, '\'', "&#039;");
  }

  lemma EscapeHtmlPlain(x: char)
    requires x != '&' && !IsMarkupChar(x)
    ensures EscapeHtml([x]) == [x]
  {
    ReplaceCharOne(x, '&', "&amp;");
    ReplaceCharOne(x, '<', "&lt;");
    ReplaceCharOne(x, '>', "&gt;");
    ReplaceCharOne(x, '"', "&quot;");
    ReplaceCharOne(x, '\'', "&#039;");
  }

  /** The five passes turn a single character into its entity: no pass
      touches what an earlier pass produced, because `&` goes first. */
  lemma EscapeHtmlChar(x: char)
    ensures EscapeHtml([x]) == Entity(x)
  {
    if x == '&' {
      EscapeHtmlAmp(x);
    } else if x == '<' {
      EscapeHtmlLt(x);
    } else if x == '>' {
      EscapeHtmlGt(x);
    } else if x == '"' {
      EscapeHtmlQuot(x);
    } else if x == '\'' {
      EscapeHtmlApos(x);
    } else {
      EscapeHtmlPlain(x);
    }
  }

  /** The replacement chain is the per-character escaping. */
  lemma {:induction false} EscapeHtmlIsEscapeEach(s: string)
    ensures EscapeHtml(s) == EscapeEach(s)
    decreases |s|
  {
    if |s| > 0 {
      var rest := s[1..];
      assert s == [s[0]] + rest;
      var a1, a2 := ReplaceChar([s[0]], '&', "&amp;"), ReplaceChar(rest, '&', "&amp;");
      ReplaceCharAppend([s[0]], rest, '&', "&amp;");
      var b1, b2 := ReplaceChar(a1, '<', "&lt;"), ReplaceChar(a2, '<', "&lt;");
      ReplaceCharAppend(a1, a2, '<', "&lt;");
      var c1, c2 := ReplaceChar(b1, '>', "&gt;"), ReplaceChar(b2, '>', "&gt;");
      ReplaceCharAppend(b1, b2, '>', "&gt;");
      var d1, d2 := ReplaceChar(c1, '"', "&quot;"), ReplaceChar(c2, '"', "&quot;");
      ReplaceCharAppend(c1, c2, '"', "&quot;");
      ReplaceCharAppend(d1, d2, '\'', "&#039;");
      assert EscapeHtml(s) == EscapeHtml([s[0]]) + EscapeHtml(rest);
      EscapeHtmlChar(s[0]);
      EscapeHtmlIsEscapeEach(rest);
    }
  }

  lemma {:induction false} EscapeEachMarkupFree(s: string)
    ensures MarkupFree(EscapeEach(s))
    decreases |s|
  {
    if |s| > 0 {
      EscapeEachMarkupFree(s[1..]);
    }
  }

  lemma UnescapeAmp(x: char, t: string)
    requires x == '&'
    ensures Unescape(Entity(x) + t) == [x] + Unescape(t)
  {
    var s := Entity(x) + t;
    assert s[..5] == Entity(x) && s[5..] == t;
  }

  lemma UnescapeLt(x: char, t: string)
    requires x == '<'
    ensures Unescape(Entity(x) + t) == [x] + Unescape(t)
  {
    var s := Entity(x) + t;
    assert s[1] == 'l';
    assert s[..4] == Entity(x) && s[4..] == t;
  }

  lemma UnescapeGt(x: char, t: string)
    requires x == '>'
    ensures Unescape(Entity(x) + t) == [x] + Unescape(t)
  {
    var s := Entity(x) + t;
    assert s[1] == 'g';
    assert s[..4] == Entity(x) && s[4..] == t;
  }

  lemma UnescapeQuot(x: char, t: string)
    requires x == '"'
    ensures Unescape(Entity(x) + t) == [x] + Unescape(t)
  {
    var s := Entity(x) + t;
    assert s[1] == 'q';
    assert s[..6] == Entity(x) && s[6..] == t;
  }

  lemma UnescapeApos(x: char, t: string)
    requires x == '\''
    ensures Unescape(Entity(x) + t) == [x] + Unescape(t)
  {
    var s := Entity(x) + t;
    assert s[1] == '#';
    assert s[..6] == Entity(x) && s[6..] == t;
  }

  lemma UnescapePlain(x: char, t: string)
    requires x != '&' && !IsMarkupChar(x)
    ensures Unescape(Entity(x) + t) == [x] + Unescape(t)
  {
    var s := Entity(x) + t;
    assert s[0] == x && s[1..] == t;
  }

  /** Decoding an entity followed by anything gives back the character first. */
  lemma UnescapeEntity(x: char, t: string)
    ensures Unescape(Entity(x) + t) == [x] + Unescape(t)
  {
    if x == '&' {
      UnescapeAmp(x, t);
    } else if x == '<' {
      UnescapeLt(x, t);
    } else if x == '>' {
      UnescapeGt(x, t);
    } else if x == '"' {
      UnescapeQuot(x, t);
    } else if x == '\'' {
      UnescapeApos(x, t);
    } else {
      UnescapePlain(x, t);
    }
  }

  lemma {:induction false} UnescapeEscapeEach(s: string)
    ensures Unescape(EscapeEach(s)) == s
    decreases |s|
  {
    if |s| > 0 {
      UnescapeEntity(s[0], EscapeEach(s[1..]));
      UnescapeEscapeEach(s[1..]);
    }
  }

  /** Escaped text carries no raw `<`, `>`, `"` or `'`, and decoding it gives
      back the original string exactly. */
  lemma EscapeHtmlSafe(s: string)
    ensures MarkupFree(EscapeHtml(s))
    ensures Unescape(EscapeHtml(s)) == s
  {
    EscapeHtmlIsEscapeEach(s);
    EscapeEachMarkupFree(s);
    UnescapeEscapeEach(s);
  }
}

=== FILE: render.dfy ===
/**
 * `renderTable`, as the structure of what it writes into the container
 * rather than as a markup string.
 */
module Render {
  import opened JsValues
  import opened Sorting
  import opened CellFormat
  import opened Html

  /** One header cell: its text (inserted as is, without escaping), the
      column index its click handler passes to the sort, and its indicator. */
  datatype HeaderCell = HeaderCell(text: string, column: nat, icon: SortIcon)

  /** What the container shows. */
  datatype Screen =
    | EmptyState                                              // "Tidak ada data yang ditemukan"
    | ErrorState(message: string)                             // message inserted as is
    | TableScreen(headers: seq<HeaderCell>, body: seq<seq<string>>)

  function RenderHeaders(header: Row, st: SortState): seq<HeaderCell>
  {
    seq(|header|, i requires 0 <= i < |header| => HeaderCell(ToStr(header[i]), i, IconFor(st, i)))
  }

  function RenderRow(row: Row, rt: Runtime): seq<string>
  {
    seq(|row|, j requires 0 <= j < |row| => FormatCell(row[j], rt))
  }

  /** The empty state for no rows; otherwise one header cell per header entry
      and one body row per data row, one formatted cell per cell of that row. */
  function RenderTable(view: Table, st: SortState, rt: Runtime): (r: Screen)
    ensures r == EmptyState <==> |view| == 0
    ensures |view| > 0 ==> r.TableScreen? && |r.headers| == |view[0]| && |r.body| == |view| - 1
    ensures |view| > 0 ==> forall i | 0 <= i < |view[0]| ::
      r.headers[i] == HeaderCell(ToStr(view[0][i]), i, IconFor(st, i))
    ensures |view| > 0 ==> forall k | 0 <= k < |view| - 1 ::
      |r.body[k]| == |view[k + 1]| &&
      forall j | 0 <= j < |view[k + 1]| :: r.body[k][j] == FormatCell(view[k + 1][j], rt)
  {
    if |view| == 0 then EmptyState
    else TableScreen(RenderHeaders(view[0], st), seq(|view| - 1, k requires 0 <= k < |view| - 1 => RenderRow(view[k + 1], rt)))
  }

  /** Every free-text cell of the rendered body is free of raw markup and
      decodes back to the cell's string form. */
  lemma RenderedFreeTextSafe(view: Table, st: SortState, rt: Runtime, k: nat, j: nat)
    requires 0 < k < |view| && j < |view[k]|
    requires Classify(view[k][j], rt) == FreeText
    ensures MarkupFree(RenderTable(view, st, rt).body[k - 1][j])
    ensures Unescape(RenderTable(view, st, rt).body[k - 1][j]) == ToStr(view[k][j])
  {
    assert RenderTable(view, st, rt).body[k - 1][j] == FormatCell(view[k][j], rt);
  }

  /** The sort state changes only the indicators: labels, columns and body
      are the same under any two states. */
  lemma SortStateOnlyMovesIcons(view: Table, st1: SortState, st2: SortState, rt: Runtime)
    requires |view| > 0
    ensures RenderTable(view, st1, rt).body == RenderTable(view, st2, rt).body
    ensures forall i | 0 <= i < |view[0]| ::
      && RenderTable(view, st1, rt).headers[i].text == RenderTable(view, st2, rt).headers[i].text
      && RenderTable(view, st1, rt).headers[i].column == RenderTable(view, st2, rt).headers[i].column
  {
  }

  /** Header labels are not escaped: markup in a header cell reaches the page. */
  lemma HeaderLabelsNotEscaped(st: SortState, rt: Runtime)
    ensures RenderTable([[Str("<b>Minggu</b>")]], st, rt).headers[0].text == "<b>Minggu</b>"
    ensures !MarkupFree(RenderTable([[Str("<b>Minggu</b>")]], st, rt).headers[0].text)
  {
    var text := RenderTable([[Str("<b>Minggu</b>")]], st, rt).headers[0].text;
    assert text[0] == '<';
  }
}

=== FILE: search.dfy ===
/**
 * `handleSearch`: a case-insensitive substring filter over the data rows of
 * the loaded dataset. It always starts from the loaded rows, not from the
 * sorted view.
 */
module Search {
  import opened Wrappers
  import opened JsValues

  /** `input.toLowerCase().trim()`. */
  function NormalizeQuery(input: string, rt: Runtime): string
  {
    Trim(rt.toLower(input))
  }

  /** `String(cell).toLowerCase().includes(query)`. */
  predicate CellMatches(v: Value, query: string, rt: Runtime)
  {
    Contains(rt.toLower(ToStr(v)), query)
  }

  /** `row.some(...)`: some cell of the row contains the query. */
  predicate RowMatches(row: Row, query: string, rt: Runtime)
  {
    exists k | 0 <= k < |row| :: CellMatches(row[k], query, rt)
  }

  /** `a` is `b` with some elements left out and the rest in their order. */
  predicate IsSubsequence<T(==)>(a: seq<T>, b: seq<T>)
  {
    if |a| == 0 then true
    else if |b| == 0 then false
    else if a[0] == b[0] then IsSubsequence(a[1..], b[1..])
    else IsSubsequence(a, b[1..])
  }

  /** `rows.filter(row => row.some(...))`: exactly the matching rows, each as
      often as it occurs, in their original order. */
  function FilterRows(rows: seq<Row>, query: string, rt: Runtime): (r: seq<Row>)
    ensures IsSubsequence(r, rows)
    ensures forall k | 0 <= k < |r| :: RowMatches(r[k], query, rt)
    ensures forall x :: multiset(r)[x] == if RowMatches(x, query, rt) then multiset(rows)[x] else 0
  {
    if |rows| == 0 then []
    else
      var rest := FilterRows(rows[1..], query, rt);
      assert rows == [rows[0]] + rows[1..];
      if RowMatches(rows[0], query, rt) then [rows[0]] + rest else rest
  }

  /** Filtering the filtered rows again with the same query changes nothing. */
  lemma {:induction false} FilterRowsIdempotent(rows: seq<Row>, query: string, rt: Runtime)
    ensures FilterRows(FilterRows(rows, query, rt), query, rt) == FilterRows(rows, query, rt)
    decreases |rows|
  {
    if |rows| > 0 {
      FilterRowsIdempotent(rows[1..], query, rt);
      var rest := FilterRows(rows[1..], query, rt);
      if RowMatches(rows[0], query, rt) {
        assert ([rows[0]] + rest)[1..] == rest;
      }
    }
  }

  /** The view after a search. None stands for an empty dataset, where the
      page returns without redrawing. */
  function SearchView(data: Table, input: string, rt: Runtime): (r: Option<Table>)
    ensures r.None? <==> |data| == 0
    ensures |data| > 0 && NormalizeQuery(input, rt) == "" ==> r == Some(data)
    ensures |data| > 0 && NormalizeQuery(input, rt) != "" ==>
      && |r.value| > 0 && r.value[0] == data[0]
      && IsSubsequence(r.value[1..], data[1..])
      && (forall k | 1 <= k < |r.value| :: RowMatches(r.value[k], NormalizeQuery(input, rt), rt))
      && (forall x | x in data[1..] :: x in r.value[1..] <==> RowMatches(x, NormalizeQuery(input, rt), rt))
      && (forall x :: multiset(r.value[1..])[x] ==
            if RowMatches(x, NormalizeQuery(input, rt), rt) then multiset(data[1..])[x] else 0)
  {
    var query := NormalizeQuery(input, rt);
    if |data| == 0 then None
    else if query == "" then Some(data)
    else
      var body := FilterRows(data[1..], query, rt);
      var view := [data[0]] + body;
      assert view[1..] == body;
      assert forall x | x in data[1..] :: (x in body <==> multiset(body)[x] > 0);
      Some(view)
  }

  /** Searching again with the same query over the result shows the same rows. */
  lemma SearchViewStable(data: Table, input: string, rt: Runtime)
    requires |data| > 0
    ensures SearchView(SearchView(data, input, rt).value, input, rt) == SearchView(data, input, rt)
  {
    var query := NormalizeQuery(input, rt);
    if query != "" {
      var view := SearchView(data, input, rt).value;
      assert view[1..] == FilterRows(data[1..], query, rt);
      FilterRowsIdempotent(data[1..], query, rt);
    }
  }
}

=== FILE: sorting.dfy ===
/**
 * Column sorting: the two-field sort state and its toggle rule, the header
 * indicator, the row comparator and the sorted view of a dataset.
 */
module Sorting {
  import opened Wrappers
  import opened JsValues

  /** Active sort column (None before the first click) and direction. */
  datatype SortState = SortState(column: Option<nat>, ascending: bool)

  /** The state the page starts in: no column, ascending. */
  const Initial := SortState(None, true)

  /** The state after a click on the header of column `i`: the same column
      flips direction, another column becomes active in ascending order. */
  function Toggle(st: SortState, i: nat): (r: SortState)
    ensures r.column == Some(i)
    ensures st.column == Some(i) ==> r.ascending == !st.ascending
    ensures st.column != Some(i) ==> r.ascending
  {
    if st.column == Some(i) then SortState(st.column, !st.ascending)
    else SortState(Some(i), true)
  }

  /** Two clicks on the same column: the second undoes the first's direction,
      and two clicks on the active column restore the state. */
  lemma ToggleTwice(st: SortState, i: nat)
    ensures Toggle(Toggle(st, i), i).ascending == !Toggle(st, i).ascending
    ensures st.column == Some(i) ==> Toggle(Toggle(st, i), i) == st
    ensures st.column != Some(i) ==> Toggle(Toggle(st, i), i) == SortState(Some(i), false)
  {
  }

  /** The indicator drawn next to a header label. */
  datatype SortIcon = Neutral | Up | Down

  function IconFor(st: SortState, i: nat): (r: SortIcon)
    ensures r == Neutral <==> st.column != Some(i)
    ensures r == Up <==> st.column == Some(i) && st.ascending
    ensures r == Down <==> st.column == Some(i) && !st.ascending
  {
    if st.column != Some(i) then Neutral
    else if st.ascending then Up
    else Down
  }

  /** The markup string the page emits for each indicator. */
  function IconMarkup(icon: SortIcon): string
  {
    match icon
    case Neutral => "<span class=\"sort-icon\">\U{2195}\U{FE0F}</span>"
    case Up => "<span class=\"sort-icon\">\U{2191}</span>"
    case Down => "<span class=\"sort-icon\">\U{2193}</span>"
  }

  /** The three indicators are told apart on screen: distinct icons get
      distinct markup. */
  lemma IconMarkupDistinct(x: SortIcon, y: SortIcon)
    ensures IconMarkup(x) == IconMarkup(y) <==> x == y
  {
    var n, u, d := IconMarkup(Neutral), IconMarkup(Up), IconMarkup(Down);
    assert n[24] != u[24] && n[24] != d[24] && u[24] != d[24];
  }

  /** After a click on column `i`, only that column shows a direction, and it
      shows Up exactly when the click started a new column or undid Down. */
  lemma IconsAfterToggle(st: SortState, i: nat, j: nat)
    ensures j != i ==> IconFor(Toggle(st, i), j) == Neutral
    ensures IconFor(Toggle(st, i), i) == Up <==> IconFor(st, i) != Up
  {
  }

  // ---------------------------------------------------------------------
  // The comparator handed to Array.prototype.sort
  // ---------------------------------------------------------------------

  /** The key cell of a row converts to a number. */
  predicate NumericAt(row: Row, col: nat, rt: Runtime)
  {
    ToNumber(Lookup(row, col), rt).Some?
  }

  /** The numeric key of a row (0 when the cell is not numeric). */
  function NumericKey(row: Row, col: nat, rt: Runtime): int
  {
    ToNumber(Lookup(row, col), rt).GetOr(0)
  }

  predicate AllNumeric(rows: seq<Row>, col: nat, rt: Runtime)
  {
    forall k | 0 <= k < |rows| :: NumericAt(rows[k], col, rt)
  }

  /** `a` may stand before `b` when ordering by the numeric key. */
  predicate KeyBefore(a: Row, b: Row, col: nat, ascending: bool, rt: Runtime)
  {
    if ascending then NumericKey(a, col, rt) <= NumericKey(b, col, rt)
    else NumericKey(a, col, rt) >= NumericKey(b, col, rt)
  }

  /** The comparator: numeric difference when both key cells are numbers,
      otherwise locale comparison of their texts, swapped when descending. */
  function Compare(a: Row, b: Row, col: nat, ascending: bool, rt: Runtime): (r: int)
    ensures NumericAt(a, col, rt) && NumericAt(b, col, rt) ==>
      && (r <= 0 <==> KeyBefore(a, b, col, ascending, rt))
      && (r == 0 <==> NumericKey(a, col, rt) == NumericKey(b, col, rt))
  {
    var aVal, bVal := Lookup(a, col), Lookup(b, col);
    match (ToNumber(aVal, rt), ToNumber(bVal, rt))
    case (Some(x), Some(y)) => if ascending then x - y else y - x
    case _ =>
      if ascending then rt.localeCompare(ToStr(aVal), ToStr(bVal))
      else rt.localeCompare(ToStr(bVal), ToStr(aVal))
  }

  /** Descending is ascending with the arguments swapped; two numeric keys
      compare antisymmetrically; otherwise the comparator is the locale order
      of the cells' string forms, `undefined` past a row's end. */
  lemma CompareSymmetry(a: Row, b: Row, col: nat, ascending: bool, rt: Runtime)
    ensures Compare(a, b, col, false, rt) == Compare(b, a, col, true, rt)
    ensures NumericAt(a, col, rt) && NumericAt(b, col, rt) ==>
      Compare(a, b, col, ascending, rt) == -Compare(b, a, col, ascending, rt)
    ensures !(NumericAt(a, col, rt) && NumericAt(b, col, rt)) ==>
      Compare(a, b, col, true, rt) == rt.localeCompare(ToStr(Lookup(a, col)), ToStr(Lookup(b, col)))
    ensures col >= |a| ==> Compare(a, b, col, true, rt) == Compare([], b, col, true, rt)
  {
  }

  /** The comparator is not a total order once a column mixes numbers and
      text: "2" < "10" numerically, "10" < "1a" and "1a" < "2" as text. */
  lemma MixedColumnCycle(rt: Runtime, a: Row, b: Row, c: Row)
    requires a == [Str("2")] && b == [Str("10")] && c == [Str("1a")]
    requires rt.parseNumber("2") == Some(2) && rt.parseNumber("10") == Some(10)
    requires rt.parseNumber("1a") == None
    requires rt.localeCompare("10", "1a") < 0 && rt.localeCompare("1a", "2") < 0
    ensures Compare(a, b, 0, true, rt) < 0
    ensures Compare(b, c, 0, true, rt) < 0
    ensures Compare(c, a, 0, true, rt) < 0
  {
  }

  // ---------------------------------------------------------------------
  // Array.prototype.sort, as a stable insertion sort
  // ---------------------------------------------------------------------

  /** Inserts `x` before the first row it does not compare above. */
  function InsertRow(x: Row, sorted: seq<Row>, col: nat, ascending: bool, rt: Runtime): (r: seq<Row>)
    ensures multiset(r) == multiset(sorted) + multiset{x}
    ensures |r| == |sorted| + 1
  {
    if |sorted| == 0 then [x]
    else if Compare(x, sorted[0], col, ascending, rt) <= 0 then [x] + sorted
    else
      assert sorted == [sorted[0]] + sorted[1..];
      [sorted[0]] + InsertRow(x, sorted[1..], col, ascending, rt)
  }

  /** `rows.sort(comparator)`: a rearrangement of `rows`. */
  function SortRows(rows: seq<Row>, col: nat, ascending: bool, rt: Runtime): (r: seq<Row>)
    ensures multiset(r) == multiset(rows)
    ensures |r| == |rows|
  {
    if |rows| == 0 then []
    else
      assert rows == [rows[0]] + rows[1..];
      InsertRow(rows[0], SortRows(rows[1..], col, ascending, rt), col, ascending, rt)
  }

  /** Rows ordered by their numeric key: nondecreasing when ascending,
      nonincreasing when descending. */
  predicate KeyOrdered(rows: seq<Row>, col: nat, ascending: bool, rt: Runtime)
  {
    forall i, j | 0 <= i < j < |rows| :: KeyBefore(rows[i], rows[j], col, ascending, rt)
  }

  lemma AllNumericMultiset(a: seq<Row>, b: seq<Row>, col: nat, rt: Runtime)
    requires multiset(a) == multiset(b)
    requires AllNumeric(a, col, rt)
    ensures AllNumeric(b, col, rt)
  {
    forall k | 0 <= k < |b|
      ensures NumericAt(b[k], col, rt)
    {
      assert b[k] in multiset(b);
      assert b[k] in a;
    }
  }

  lemma ConsOrdered(h: Row, t: seq<Row>, col: nat, ascending: bool, rt: Runtime)
    requires KeyOrdered(t, col, ascending, rt)
    requires forall k | 0 <= k < |t| :: KeyBefore(h, t[k], col, ascending, rt)
    ensures KeyOrdered([h] + t, col, ascending, rt)
  {
    var r := [h] + t;
    forall i, j | 0 <= i < j < |r|
      ensures KeyBefore(r[i], r[j], col, ascending, rt)
    {
      assert r[j] == t[j - 1];
      if i > 0 {
        assert r[i] == t[i - 1];
      }
    }
  }

  lemma {:induction false} InsertRowOrdered(x: Row, sorted: seq<Row>, col: nat, ascending: bool, rt: Runtime)
    requires NumericAt(x, col, rt) && AllNumeric(sorted, col, rt)
    requires KeyOrdered(sorted, col, ascending, rt)
    ensures KeyOrdered(InsertRow(x, sorted, col, ascending, rt), col, ascending, rt)
    decreases |sorted|
  {
    if |sorted| == 0 {
    } else if Compare(x, sorted[0], col, ascending, rt) <= 0 {
      assert NumericAt(sorted[0], col, rt);
      assert KeyBefore(x, sorted[0], col, ascending, rt);
      assert forall k | 0 < k < |sorted| :: KeyBefore(sorted[0], sorted[k], col, ascending, rt);
      ConsOrdered(x, sorted, col, ascending, rt);
    } else {
      var head, tail := sorted[0], sorted[1..];
      assert NumericAt(head, col, rt);
      assert KeyBefore(head, x, col, ascending, rt);
      InsertRowOrdered(x, tail, col, ascending, rt);
      var rest := InsertRow(x, tail, col, ascending, rt);
      forall k | 0 <= k < |rest|
        ensures KeyBefore(head, rest[k], col, ascending, rt)
      {
        assert rest[k] in multiset(rest);
        if rest[k] != x {
          assert rest[k] in multiset(tail);
          var m :| 0 <= m < |tail| && tail[m] == rest[k];
          assert sorted[m + 1] == rest[k];
        }
      }
      ConsOrdered(head, rest, col, ascending, rt);
    }
  }

  /** When every key cell of the column is numeric, the sort orders the rows
      by that number in the requested direction. */
  lemma {:induction false} SortRowsNumericOrder(rows: seq<Row>, col: nat, ascending: bool, rt: Runtime)
    requires AllNumeric(rows, col, rt)
    ensures KeyOrdered(SortRows(rows, col, ascending, rt), col, ascending, rt)
    decreases |rows|
  {
    if |rows| > 0 {
      var tail := rows[1..];
      SortRowsNumericOrder(tail, col, ascending, rt);
      AllNumericMultiset(tail, SortRows(tail, col, ascending, rt), col, rt);
      InsertRowOrdered(rows[0], SortRows(tail, col, ascending, rt), col, ascending, rt);
    }
  }

  /** `String(row[col])`, the text the comparator falls back to. */
  function KeyText(row: Row, col: nat): string
  {
    ToStr(Lookup(row, col))
  }

  /** What `localeCompare` is assumed to be when text columns are ordered: a
      total preorder, read as "`x` may stand before `y`" when it is at most zero. */
  ghost predicate LocaleTotalOrder(rt: Runtime)
  {
    && (forall x: string, y: string :: rt.localeCompare(x, y) <= 0 || rt.localeCompare(y, x) <= 0)
    && (forall x: string, y: string, z: string ::
          rt.localeCompare(x, y) <= 0 && rt.localeCompare(y, z) <= 0 ==> rt.localeCompare(x, z) <= 0)
  }

  /** No key cell of the column converts to a number. */
  predicate NoneNumeric(rows: seq<Row>, col: nat, rt: Runtime)
  {
    forall k | 0 <= k < |rows| :: !NumericAt(rows[k], col, rt)
  }

  /** `a` may stand before `b` when ordering by the key text. */
  predicate TextBefore(a: Row, b: Row, col: nat, ascending: bool, rt: Runtime)
  {
    if ascending then rt.localeCompare(KeyText(a, col), KeyText(b, col)) <= 0
    else rt.localeCompare(KeyText(b, col), KeyText(a, col)) <= 0
  }

  /** Rows ordered by their key text in the requested direction. */
  predicate TextOrdered(rows: seq<Row>, col: nat, ascending: bool, rt: Runtime)
  {
    forall i, j | 0 <= i < j < |rows| :: TextBefore(rows[i], rows[j], col, ascending, rt)
  }

  /** Outside the numeric case the comparator's sign is the text order. */
  lemma CompareText(a: Row, b: Row, col: nat, ascending: bool, rt: Runtime)
    requires !(NumericAt(a, col, rt) && NumericAt(b, col, rt))
    ensures Compare(a, b, col, ascending, rt) <= 0 <==> TextBefore(a, b, col, ascending, rt)
  {
  }

  lemma NoneNumericMultiset(a: seq<Row>, b: seq<Row>, col: nat, rt: Runtime)
    requires multiset(a) == multiset(b)
    requires NoneNumeric(a, col, rt)
    ensures NoneNumeric(b, col, rt)
  {
    forall k | 0 <= k < |b|
      ensures !NumericAt(b[k], col, rt)
    {
      assert b[k] in multiset(b);
      assert b[k] in a;
    }
  }

  lemma TextConsOrdered(h: Row, t: seq<Row>, col: nat, ascending: bool, rt: Runtime)
    requires TextOrdered(t, col, ascending, rt)
    requires forall k | 0 <= k < |t| :: TextBefore(h, t[k], col, ascending, rt)
    ensures TextOrdered([h] + t, col, ascending, rt)
  {
    var r := [h] + t;
    forall i, j | 0 <= i < j < |r|
      ensures TextBefore(r[i], r[j], col, ascending, rt)
    {
      assert r[j] == t[j - 1];
      if i > 0 {
        assert r[i] == t[i - 1];
      }
    }
  }

  lemma {:induction false} InsertRowTextOrdered(x: Row, sorted: seq<Row>, col: nat, ascending: bool, rt: Runtime)
    requires LocaleTotalOrder(rt)
    requires !NumericAt(x, col, rt) && NoneNumeric(sorted, col, rt)
    requires TextOrdered(sorted, col, ascending, rt)
    ensures TextOrdered(InsertRow(x, sorted, col, ascending, rt), col, ascending, rt)
    decreases |sorted|
  {
    if |sorted| == 0 {
    } else if Compare(x, sorted[0], col, ascending, rt) <= 0 {
      CompareText(x, sorted[0], col, ascending, rt);
      forall k | 0 <= k < |sorted|
        ensures TextBefore(x, sorted[k], col, ascending, rt)
      {
        if k > 0 {
          assert TextBefore(sorted[0], sorted[k], col, ascending, rt);
        }
      }
      TextConsOrdered(x, sorted, col, ascending, rt);
    } else {
      var head, tail := sorted[0], sorted[1..];
      CompareText(x, head, col, ascending, rt);
      assert TextBefore(head, x, col, ascending, rt);
      InsertRowTextOrdered(x, tail, col, ascending, rt);
      var rest := InsertRow(x, tail, col, ascending, rt);
      forall k | 0 <= k < |rest|
        ensures TextBefore(head, rest[k], col, ascending, rt)
      {
        assert rest[k] in multiset(rest);
        if rest[k] != x {
          assert rest[k] in multiset(tail);
          var m :| 0 <= m < |tail| && tail[m] == rest[k];
          assert sorted[m + 1] == rest[k];
        }
      }
      TextConsOrdered(head, rest, col, ascending, rt);
    }
  }

  /** When no key cell of the column is numeric and `localeCompare` is a total
      preorder, the sort orders the rows by their key text in the requested
      direction. */
  lemma {:induction false} SortRowsTextOrder(rows: seq<Row>, col: nat, ascending: bool, rt: Runtime)
    requires LocaleTotalOrder(rt)
    requires NoneNumeric(rows, col, rt)
    ensures TextOrdered(SortRows(rows, col, ascending, rt), col, ascending, rt)
    decreases |rows|
  {
    if |rows| > 0 {
      var tail := rows[1..];
      SortRowsTextOrder(tail, col, ascending, rt);
      NoneNumericMultiset(tail, SortRows(tail, col, ascending, rt), col, rt);
      InsertRowTextOrdered(rows[0], SortRows(tail, col, ascending, rt), col, ascending, rt);
    }
  }

  /** Rows with equal keys are equal rows: the key column leaves no ties to break. */
  predicate KeyDeterminesRow(rows: seq<Row>, col: nat, rt: Runtime)
  {
    forall x, y | x in rows && y in rows :: NumericKey(x, col, rt) == NumericKey(y, col, rt) ==> x == y
  }

  function Reverse<T>(s: seq<T>): (r: seq<T>)
    ensures |r| == |s|
    ensures forall k | 0 <= k < |s| :: r[k] == s[|s| - 1 - k]
  {
    if |s| == 0 then [] else Reverse(s[1..]) + [s[0]]
  }

  lemma {:induction false} ReverseMultiset<T>(s: seq<T>)
    ensures multiset(Reverse(s)) == multiset(s)
    decreases |s|
  {
    if |s| > 0 {
      ReverseMultiset(s[1..]);
      assert s == [s[0]] + s[1..];
    }
  }

  lemma MultisetTails<T>(a: seq<T>, b: seq<T>)
    requires multiset(a) == multiset(b)
    requires |a| > 0 && |b| > 0 && a[0] == b[0]
    ensures multiset(a[1..]) == multiset(b[1..])
  {
    assert a == [a[0]] + a[1..];
    assert b == [b[0]] + b[1..];
    var h := multiset{a[0]};
    assert multiset(a) == h + multiset(a[1..]);
    assert multiset(b) == h + multiset(b[1..]);
    forall x
      ensures multiset(a[1..])[x] == multiset(b[1..])[x]
    {
      assert multiset(a)[x] == h[x] + multiset(a[1..])[x];
      assert multiset(b)[x] == h[x] + multiset(b[1..])[x];
    }
  }

  /** The first rows of two ascending arrangements of the same rows coincide. */
  lemma AscendingHeads(a: seq<Row>, b: seq<Row>, col: nat, rt: Runtime)
    requires multiset(a) == multiset(b) && |a| > 0
    requires KeyDeterminesRow(a, col, rt)
    requires KeyOrdered(a, col, true, rt) && KeyOrdered(b, col, true, rt)
    ensures |b| > 0 && a[0] == b[0]
  {
    assert a[0] in multiset(b);
    var k :| 0 <= k < |b| && b[k] == a[0];
    assert b[0] in multiset(a);
    var m :| 0 <= m < |a| && a[m] == b[0];
    assert KeyBefore(b[0], b[k], col, true, rt);
    assert KeyBefore(a[0], a[m], col, true, rt);
    assert a[0] in a && a[m] in a;
  }

  /** Two ascending arrangements of the same rows coincide when the key determines the row. */
  lemma {:induction false} AscendingUnique(a: seq<Row>, b: seq<Row>, col: nat, rt: Runtime)
    requires multiset(a) == multiset(b)
    requires KeyDeterminesRow(a, col, rt)
    requires KeyOrdered(a, col, true, rt) && KeyOrdered(b, col, true, rt)
    ensures a == b
    decreases |a|
  {
    assert |a| == |multiset(a)| == |b|;
    if |a| > 0 {
      AscendingHeads(a, b, col, rt);
      MultisetTails(a, b);
      var a', b' := a[1..], b[1..];
      forall x, y | x in a' && y in a'
        ensures NumericKey(x, col, rt) == NumericKey(y, col, rt) ==> x == y
      {
        assert x in a && y in a;
      }
      assert KeyOrdered(a', col, true, rt) by {
        forall i, j | 0 <= i < j < |a'| ensures KeyBefore(a'[i], a'[j], col, true, rt) {
          assert a'[i] == a[i + 1] && a'[j] == a[j + 1];
        }
      }
      assert KeyOrdered(b', col, true, rt) by {
        forall i, j | 0 <= i < j < |b'| ensures KeyBefore(b'[i], b'[j], col, true, rt) {
          assert b'[i] == b[i + 1] && b'[j] == b[j + 1];
        }
      }
      AscendingUnique(a', b', col, rt);
      assert a == [a[0]] + a' && b == [b[0]] + b';
    }
  }

  /** With no ties in a numeric column, the descending sort is the ascending
      sort read backwards: a second click on the header reverses the rows. */
  lemma DescendingReversesAscending(rows: seq<Row>, col: nat, rt: Runtime)
    requires AllNumeric(rows, col, rt)
    requires KeyDeterminesRow(rows, col, rt)
    ensures SortRows(rows, col, false, rt) == Reverse(SortRows(rows, col, true, rt))
  {
    var up, down := SortRows(rows, col, true, rt), SortRows(rows, col, false, rt);
    SortRowsNumericOrder(rows, col, true, rt);
    SortRowsNumericOrder(rows, col, false, rt);
    var back := Reverse(down);
    ReverseMultiset(down);
    assert KeyOrdered(back, col, true, rt) by {
      forall i, j | 0 <= i < j < |back|
        ensures KeyBefore(back[i], back[j], col, true, rt)
      {
        assert KeyBefore(down[|down| - 1 - j], down[|down| - 1 - i], col, false, rt);
      }
    }
    forall x, y | x in up && y in up
      ensures NumericKey(x, col, rt) == NumericKey(y, col, rt) ==> x == y
    {
      assert x in multiset(up) && y in multiset(up);
      assert x in rows && y in rows;
    }
    AscendingUnique(up, back, col, rt);
    assert Reverse(back) == down;
  }

  // ---------------------------------------------------------------------
  // The sorted view handed to the renderer
  // ---------------------------------------------------------------------

  /** `[headers, ...rows.sort(...)]` over a copy of the data rows. None stands for
      an empty dataset, where the page's renderer fails on the missing header row. */
  function SortView(data: Table, col: nat, ascending: bool, rt: Runtime): (r: Option<Table>)
    ensures r.Some? <==> |data| > 0
    ensures r.Some? ==> |r.value| == |data| && r.value[0] == data[0]
    ensures r.Some? ==> multiset(r.value[1..]) == multiset(data[1..])
    ensures r.Some? && AllNumeric(data[1..], col, rt) ==> KeyOrdered(r.value[1..], col, ascending, rt)
    ensures r.Some? && LocaleTotalOrder(rt) && NoneNumeric(data[1..], col, rt) ==>
      TextOrdered(r.value[1..], col, ascending, rt)
  {
    if |data| == 0 then None
    else
      var view := [data[0]] + SortRows(data[1..], col, ascending, rt);
      assert view[1..] == SortRows(data[1..], col, ascending, rt);
      assert AllNumeric(data[1..], col, rt) ==> KeyOrdered(view[1..], col, ascending, rt) by {
        if AllNumeric(data[1..], col, rt) {
          SortRowsNumericOrder(data[1..], col, ascending, rt);
        }
      }
      assert LocaleTotalOrder(rt) && NoneNumeric(data[1..], col, rt) ==>
        TextOrdered(view[1..], col, ascending, rt) by {
        if LocaleTotalOrder(rt) && NoneNumeric(data[1..], col, rt) {
          SortRowsTextOrder(data[1..], col, ascending, rt);
        }
      }
      Some(view)
  }

  lemma InsertRowFirst(x: Row, sorted: seq<Row>, col: nat, ascending: bool, rt: Runtime)
    requires |sorted| > 0 && Compare(x, sorted[0], col, ascending, rt) <= 0
    ensures InsertRow(x, sorted, col, ascending, rt) == [x] + sorted
  {
  }

  lemma InsertRowLater(x: Row, sorted: seq<Row>, col: nat, ascending: bool, rt: Runtime)
    requires |sorted| > 0 && Compare(x, sorted[0], col, ascending, rt) > 0
    ensures InsertRow(x, sorted, col, ascending, rt) == [sorted[0]] + InsertRow(x, sorted[1..], col, ascending, rt)
  {
  }

  lemma SortRowsCons(x: Row, rows: seq<Row>, col: nat, ascending: bool, rt: Runtime)
    ensures SortRows([x] + rows, col, ascending, rt) == InsertRow(x, SortRows(rows, col, ascending, rt), col, ascending, rt)
  {
    assert ([x] + rows)[1..] == rows;
  }
}

=== FILE: values.dfy ===
/**
 * The JavaScript values a schedule sheet delivers, and the conversions
 * (`Number`, `isNaN`, `String`, `trim`, `includes`) the page applies to them.
 *
 * Number parsing, date parsing, date formatting, locale comparison and lower-casing
 * belong to the JavaScript engine and its locale data; they are gathered in the
 * `Runtime` record and left uninterpreted.
 */
module JsValues {
  import opened Wrappers

  /** A cell as the page sees it. JSON yields the last four; `Undefined` is what
      reading past the end of a row yields (and what ingest writes into an empty row). */
  datatype Value = Undefined | Null | Bool(b: bool) | Num(n: int) | Str(s: string)

  type Row = seq<Value>

  /** A dataset: row 0 is the header row, the rest are data rows. */
  type Table = seq<Row>

  /** The engine services the page calls but whose semantics are not modelled. */
  datatype Runtime = Runtime(
    parseNumber: string -> Option<int>,     // Number(s) on a string; None stands for NaN
    parsesAsDate: string -> bool,           // !isNaN(Date.parse(s))
    formatDate: Value -> string,            // formatDate(v), toLocaleDateString('id-ID')
    localeCompare: (string, string) -> int, // a.localeCompare(b)
    toLower: string -> string)              // s.toLowerCase()

  /** `row[i]` in JavaScript: past the end it is `undefined`. */
  function Lookup(row: Row, i: nat): Value
  {
    if i < |row| then row[i] else Undefined
  }

  /** `Number(v)`, with None for NaN. Only integers are modelled. */
  function ToNumber(v: Value, rt: Runtime): Option<int>
  {
    match v
    case Undefined => None
    case Null => Some(0)
    case Bool(b) => Some(if b then 1 else 0)
    case Num(n) => Some(n)
    case Str(s) => rt.parseNumber(s)
  }

  /** The global `isNaN(v)`. */
  predicate IsNaN(v: Value, rt: Runtime)
  {
    ToNumber(v, rt).None?
  }

  /** `String(v)`, also what a template literal `${v}` produces. */
  function ToStr(v: Value): string
  {
    match v
    case Undefined => "undefined"
    case Null => "null"
    case Bool(b) => if b then "true" else "false"
    case Num(n) => IntToDecimal(n)
    case Str(s) => s
  }

  /** JavaScript's truthiness, as used by `if (json.error)`. */
  predicate Truthy(v: Value)
  {
    match v
    case Undefined => false
    case Null => false
    case Bool(b) => b
    case Num(n) => n != 0
    case Str(s) => s != ""
  }

  // ---------------------------------------------------------------------
  // Decimal rendering of integers (Number.prototype.toString, radix 10)
  // ---------------------------------------------------------------------

  predicate IsDigit(c: char)
  {
    '0' <= c <= '9'
  }

  function DigitChar(d: nat): (c: char)
    requires d < 10
    ensures IsDigit(c)
  {
    "0123456789"[d]
  }

  function DigitValue(c: char): nat
    requires IsDigit(c)
  {
    (c as int - '0' as int) as nat
  }

  /** The decimal numeral of a natural number, most significant digit first. */
  function NatToDecimal(n: nat): (s: string)
    ensures |s| > 0
    ensures forall k | 0 <= k < |s| :: IsDigit(s[k])
    ensures n > 0 ==> s[0] != '0'
    decreases n
  {
    if n < 10 then [DigitChar(n)] else NatToDecimal(n / 10) + [DigitChar(n % 10)]
  }

  function IntToDecimal(n: int): string
  {
    if n < 0 then "-" + NatToDecimal(-n) else NatToDecimal(n)
  }

  /** The number a string of digits denotes. */
  function DecimalValue(s: string): nat
    requires forall k | 0 <= k < |s| :: IsDigit(s[k])
  {
    if |s| == 0 then 0 else 10 * DecimalValue(s[..|s| - 1]) + DigitValue(s[|s| - 1])
  }

  lemma {:induction false} DecimalRoundTrip(n: nat)
    ensures DecimalValue(NatToDecimal(n)) == n
    decreases n
  {
    var s := NatToDecimal(n);
    if n < 10 {
      assert s == [DigitChar(n)];
      assert s[..0] == [];
    } else {
      DecimalRoundTrip(n / 10);
      assert s[..|s| - 1] == NatToDecimal(n / 10);
    }
  }

  // ---------------------------------------------------------------------
  // String.prototype.trim and String.prototype.includes
  // ---------------------------------------------------------------------

  /** ECMAScript WhiteSpace and LineTerminator code points, which `trim` removes. */
  predicate IsJsSpace(c: char)
  {
    || c == '\t' || c == '\n' || c == '\U{B}' || c == '\U{C}' || c == '\r' || c == ' '
    || c == '\U{A0}' || c == '\U{1680}' || ('\U{2000}' <= c <= '\U{200A}')
    || c == '\U{2028}' || c == '\U{2029}' || c == '\U{202F}' || c == '\U{205F}'
    || c == '\U{3000}' || c == '\U{FEFF}'
  }

  /** Number of white-space characters at the start of `s`. */
  function LeadingSpaces(s: string): (k: nat)
    ensures k <= |s|
    ensures forall i | 0 <= i < k :: IsJsSpace(s[i])
    ensures k < |s| ==> !IsJsSpace(s[k])
  {
    if |s| > 0 && IsJsSpace(s[0]) then 1 + LeadingSpaces(s[1..]) else 0
  }

  /** Number of white-space characters at the end of `s`. */
  function TrailingSpaces(s: string): (k: nat)
    ensures k <= |s|
    ensures forall i | |s| - k <= i < |s| :: IsJsSpace(s[i])
    ensures k < |s| ==> !IsJsSpace(s[|s| - 1 - k])
  {
    if |s| > 0 && IsJsSpace(s[|s| - 1]) then 1 + TrailingSpaces(s[..|s| - 1]) else 0
  }

  /** `s.trim()`: the longest slice of `s` that neither starts nor ends with white space. */
  function Trim(s: string): (r: string)
    ensures LeadingSpaces(s) + |r| <= |s|
    ensures r == s[LeadingSpaces(s)..LeadingSpaces(s) + |r|]
    ensures forall i | 0 <= i < LeadingSpaces(s) :: IsJsSpace(s[i])
    ensures forall i | LeadingSpaces(s) + |r| <= i < |s| :: IsJsSpace(s[i])
    ensures |r| > 0 ==> !IsJsSpace(r[0]) && !IsJsSpace(r[|r| - 1])
  {
    var t := s[LeadingSpaces(s)..];
    var r := t[..|t| - TrailingSpaces(t)];
    assert forall i | LeadingSpaces(s) + |r| <= i < |s| :: s[i] == t[i - LeadingSpaces(s)];
    r
  }

  /** Trimming twice removes nothing more. */
  lemma TrimIdempotent(s: string)
    ensures Trim(Trim(s)) == Trim(s)
  {
    var r := Trim(s);
    if |r| > 0 {
      assert LeadingSpaces(r) == 0;
      assert TrailingSpaces(r) == 0;
    }
  }

  /** `needle` occurs in `hay` starting at index `i`. */
  predicate OccursAt(hay: string, needle: string, i: nat)
  {
    i + |needle| <= |hay| && hay[i..i + |needle|] == needle
  }

  /** `hay.includes(needle)`. */
  predicate Contains(hay: string, needle: string)
  {
    exists i: nat | i <= |hay| :: OccursAt(hay, needle, i)
  }
}

=== FILE: viewer.dfy ===
/**
 * The page's global state (`originalData`, `currentSort`) and the three
 * events that change what it shows: a response arriving, a header click and
 * a search.
 */
module Viewer {
  import opened Wrappers
  import opened JsValues
  import opened Sorting
  import opened Search
  import opened Render
  import opened Fetch

  datatype Page = Page(data: Table, sort: SortState)

  const Start := Page([], Initial)

  /** The page state after an event, and the screen it draws (None: nothing redrawn). */
  datatype Step = Step(page: Page, screen: Option<Screen>)

  /** A response replaces the dataset; the sort state is kept, not reset. A
      usable response stores its ingested rows and draws them; any other
      response empties the dataset and draws an error message. */
  function OnLoad(p: Page, resp: Response, rt: Runtime): (r: Step)
    ensures r.page.sort == p.sort
    ensures r.screen.Some?
    ensures resp.Json? && !Truthy(resp.error) && resp.values.Some? ==>
      && r.page.data == Ingest(resp.values.value, rt)
      && r.screen.value == RenderTable(r.page.data, p.sort, rt)
    ensures resp.Json? && Truthy(resp.error) ==>
      r.page.data == [] && r.screen.value == ErrorState(ToStr(resp.error))
    ensures resp.TransportFailure? || (resp.Json? && !Truthy(resp.error) && resp.values.None?) ==>
      r.page.data == [] && r.screen.value == ErrorState(LoadFailureMessage)
  {
    var loaded := Load(resp, p.sort, rt);
    Step(Page(loaded.data, p.sort), Some(loaded.screen))
  }

  /** `handleSort(i)`: toggle the state, then draw the header followed by the
      data rows sorted on column `i`. The stored dataset is left as it was. */
  function OnSort(p: Page, i: nat, rt: Runtime): (r: Step)
    ensures r.page == Page(p.data, Toggle(p.sort, i))
    ensures r.screen.Some? <==> |p.data| > 0
    ensures r.screen.Some? ==>
      exists body: seq<Row> | multiset(body) == multiset(p.data[1..]) ::
        && (AllNumeric(p.data[1..], i, rt) ==> KeyOrdered(body, i, Toggle(p.sort, i).ascending, rt))
        && (LocaleTotalOrder(rt) && NoneNumeric(p.data[1..], i, rt) ==>
              TextOrdered(body, i, Toggle(p.sort, i).ascending, rt))
        && r.screen.value == RenderTable([p.data[0]] + body, Toggle(p.sort, i), rt)
  {
    var st := Toggle(p.sort, i);
    match SortView(p.data, i, st.ascending, rt)
    case None => Step(Page(p.data, st), None)
    case Some(view) =>
      assert view == [p.data[0]] + view[1..];
      assert AllNumeric(p.data[1..], i, rt) ==> KeyOrdered(view[1..], i, st.ascending, rt);
      assert LocaleTotalOrder(rt) && NoneNumeric(p.data[1..], i, rt) ==> TextOrdered(view[1..], i, st.ascending, rt);
      Step(Page(p.data, st), Some(RenderTable(view, st, rt)))
  }

  /** `handleSearch()`: filter the stored rows (never the sorted view) and draw
      them with the current indicators. The page state is untouched. */
  function OnSearch(p: Page, input: string, rt: Runtime): (r: Step)
    ensures r.page == p
    ensures r.screen.Some? <==> |p.data| > 0
    ensures r.screen.Some? ==> r.screen.value == RenderTable(SearchView(p.data, input, rt).value, p.sort, rt)
  {
    match SearchView(p.data, input, rt)
    case None => Step(p, None)
    case Some(view) => Step(p, Some(RenderTable(view, p.sort, rt)))
  }

  /** Before any data has arrived, a header click still sets the sort state
      (the clicked column, ascending) but draws nothing, and a search draws
      nothing either. */
  lemma ClickBeforeLoad(i: nat, input: string, rt: Runtime)
    ensures OnSort(Start, i, rt) == Step(Page([], SortState(Some(i), true)), None)
    ensures OnSearch(Start, input, rt) == Step(Start, None)
  {
  }

  /** A search with an empty query after a sort draws the rows in their loaded
      order, while the header still shows the active sort's indicator. */
  lemma SearchDropsSortOrder(p: Page, i: nat, input: string, rt: Runtime)
    requires |p.data| > 0 && NormalizeQuery(input, rt) == ""
    ensures OnSearch(OnSort(p, i, rt).page, input, rt).screen == Some(RenderTable(p.data, Toggle(p.sort, i), rt))
  {
  }

  /** After an error response, a successful one replaces both the error screen
      and the emptied dataset. */
  lemma LoadAfterError(p: Page, message: string, values: Table, rt: Runtime)
    requires message != ""
    ensures OnLoad(p, Json(Str(message), None), rt).screen == Some(ErrorState(message))
    ensures OnLoad(p, Json(Str(message), None), rt).page.data == []
    ensures OnLoad(OnLoad(p, Json(Str(message), None), rt).page, Json(Undefined, Some(values)), rt).page.data
      == Ingest(values, rt)
    ensures values != [] ==>
      OnLoad(OnLoad(p, Json(Str(message), None), rt).page, Json(Undefined, Some(values)), rt).screen.value.TableScreen?
  {
  }

  /** Three rows whose column-0 keys are 1, 2 and 3. */
  predicate KeysOneTwoThree(rt: Runtime, r1: Row, r2: Row, r3: Row)
  {
    && NumericAt(r1, 0, rt) && NumericAt(r2, 0, rt) && NumericAt(r3, 0, rt)
    && NumericKey(r1, 0, rt) == 1 && NumericKey(r2, 0, rt) == 2 && NumericKey(r3, 0, rt) == 3
  }

  /** The week-number cells "1", "2" and "3" read as the keys 1, 2 and 3. */
  lemma WeekNumbersAreKeys(rt: Runtime, r1: Row, r2: Row, r3: Row)
    requires r1 == [Str("1")] && r2 == [Str("2")] && r3 == [Str("3")]
    requires rt.parseNumber("1") == Some(1) && rt.parseNumber("2") == Some(2) && rt.parseNumber("3") == Some(3)
    ensures KeysOneTwoThree(rt, r1, r2, r3)
  {
  }

  lemma SortOne(r: Row, col: nat, ascending: bool, rt: Runtime)
    ensures SortRows([r], col, ascending, rt) == [r]
  {
    SortRowsCons(r, [], col, ascending, rt);
    assert [r] + [] == [r];
  }

  lemma SortTwoAscending(rt: Runtime, r1: Row, r2: Row, r3: Row)
    requires KeysOneTwoThree(rt, r1, r2, r3)
    ensures SortRows([r1, r2], 0, true, rt) == [r1, r2]
  {
    SortOne(r2, 0, true, rt);
    SortRowsCons(r1, [r2], 0, true, rt);
    assert [r1] + [r2] == [r1, r2];
    InsertRowFirst(r1, [r2], 0, true, rt);
  }

  lemma SortTwoDescending(rt: Runtime, r1: Row, r2: Row, r3: Row)
    requires KeysOneTwoThree(rt, r1, r2, r3)
    ensures SortRows([r1, r2], 0, false, rt) == [r2, r1]
  {
    SortOne(r2, 0, false, rt);
    SortRowsCons(r1, [r2], 0, false, rt);
    assert [r1] + [r2] == [r1, r2];
    InsertRowLater(r1, [r2], 0, false, rt);
    assert [r2][1..] == [];
  }

  lemma InsertThreeAscending(rt: Runtime, r1: Row, r2: Row, r3: Row)
    requires KeysOneTwoThree(rt, r1, r2, r3)
    ensures InsertRow(r3, [r1, r2], 0, true, rt) == [r1, r2, r3]
  {
    InsertRowLater(r3, [r1, r2], 0, true, rt);
    InsertRowLater(r3, [r2], 0, true, rt);
    assert [r1, r2][1..] == [r2] && [r2][1..] == [];
  }

  /** Data rows whose week cells read 3, 1, 2: the first click on column 0
      makes it the ascending sort column and orders them 1, 2, 3. */
  lemma WeekColumnFirstClick(rt: Runtime, r1: Row, r2: Row, r3: Row)
    requires KeysOneTwoThree(rt, r1, r2, r3)
    ensures Toggle(Initial, 0) == SortState(Some(0), true)
    ensures SortRows([r3, r1, r2], 0, true, rt) == [r1, r2, r3]
  {
    SortRowsCons(r3, [r1, r2], 0, true, rt);
    assert [r3] + [r1, r2] == [r3, r1, r2];
    SortTwoAscending(rt, r1, r2, r3);
    InsertThreeAscending(rt, r1, r2, r3);
  }

  /** The second click on column 0 turns it descending and orders them 3, 2, 1. */
  lemma WeekColumnSecondClick(rt: Runtime, r1: Row, r2: Row, r3: Row)
    requires KeysOneTwoThree(rt, r1, r2, r3)
    ensures Toggle(Toggle(Initial, 0), 0) == SortState(Some(0), false)
    ensures SortRows([r3, r1, r2], 0, false, rt) == [r3, r2, r1]
  {
    SortRowsCons(r3, [r1, r2], 0, false, rt);
    assert [r3] + [r1, r2] == [r3, r1, r2];
    SortTwoDescending(rt, r1, r2, r3);
    InsertRowFirst(r3, [r2, r1], 0, false, rt);
    assert [r3] + [r2, r1] == [r3, r2, r1];
  }
}

=== FILE: wrappers.dfy ===
/** Optional values: JavaScript's "absent" (`undefined`, `NaN`) made explicit. */
module Wrappers {

  datatype Option<+T> = None | Some(value: T) {

    /** Returns the value held in Some, or a default when None. */
    function GetOr(default: T): T {
      match this
      case Some(v) => v
      case None => default
    }
  }
}
